=== FILE: README.md ===
# fluorine reactive engine, modelled in Dafny

fluorine is a small reactive-programming library. Source cells (`ReactiveValue`) hold
values. Derived cells (`ReactiveExpr`) hold a closure over other cells and cache its
result. A `Reactor` registry records which cell reads which:

- A derived cell's closure reads its inputs with `read(own id)`. That call subscribes the
  reader to the input, then seeks the input's value.
- `write` on a source cell calls `broadcast_dirty`. The broadcast clears the flag of every
  registered, clean subscriber, and each of them broadcasts from its own id in turn.
- `seek` on a dirty derived cell runs the closure again. On a clean one it returns the
  cache.

The model keeps the engine's whole state as one immutable value: a node store plus the
registry (`World.State`). Every operation of the core is a function over that value.

- `Registry` holds the `Reactor`'s two maps and `new`, `register` and `subscribe`.
- `Nodes` holds the two node kinds and their constructors, `is_clean` and `is_dirty`, and
  the flag updates of `mark_dirty` and `recompute`.
- `World` holds the state, its well-formedness, node construction, and the "only
  dirtied" relation that propagation respects.
- `Propagation` holds `broadcast_dirty`, both `mark_dirty`s (the one on a value node
  panics) and `write`. The source iterates a `HashSet` in an unspecified order, so the
  pass takes the next subscriber by an unconstrained choice. Everything proved about it
  therefore holds for every iteration order. A cell is *downstream* of a source when a chain of
  subscription edges leads to it from the source and every cell on the chain is
  registered, derived and clean. A broadcast changes exactly the downstream cells.
- `Evaluation` holds `seek`, `read`, the closure's reads and `recompute`.
- `Coherence` gives each node a reference meaning `Eval`, computed from scratch. It proves
  that `seek` returns that meaning and that `write` keeps the invariant which makes this
  so. The invariant has three parts: `Wired` (every node is registered), `Consistent`
  (every clean derived cell caches its meaning and is subscribed to its clean inputs) and
  `SinksAreExprs` (no source cell subscribes to anything).
- `Scenario` carries the `reactive_sum` test of src/reactive/expr.rs through these
  operations. It also exhibits a consequence of the registry's design: a derived cell
  that was never registered still gets subscribed, but every broadcast skips it, so it
  keeps returning a stale value.

A closure is modelled as the sequence of ids it reads plus a pure combinator of the
values read. Recursion through `seek` is bounded by a caller-supplied rank map
(`World.Ranked`) that witnesses acyclic reads. Ids are naturals supplied by the caller
in place of random UUIDs. `World.Unused` states what a fresh UUID guarantees: no node has
the id and no subscription set names it.

## Model

| member | source | states |
|---|---|---|
| Registry.New | src/lib.rs:14-19 | A new reactor has no registered id and no subscription set, and its two maps agree |
| Registry.Register | src/lib.rs:21-29 | The id becomes registered. A new id gets an empty subscriber set. A known id leaves the registry unchanged. Every other subscriber set is kept. On an aligned registry the maps stay aligned and the key set grows by exactly the id |
| Registry.Subscribe | src/lib.rs:31-39 | The edge set afterwards is exactly the old edges plus (source, sink) when the source is registered. An unregistered source is a no-op. The registered ids, the keys and alignment are unchanged |
| Registry.RegisterIdempotent | src/lib.rs:21-29 | Registering twice is registering once |
| Registry.RegisterKeepsSubscribers | src/lib.rs:22 | Re-registering a known id does not reset its subscribers |
| Registry.SubscribeRepeated | src/lib.rs:31-39 | Subscribing the same pair n >= 1 times gives the same registry as subscribing once, so there is exactly one edge |
| Registry.RegistryGrows | src/lib.rs:21-39 | Register followed by subscribe keeps the maps aligned and removes no id or edge |
| Nodes.IsClean | src/reactive/expr.rs:25-27 | A source cell is always clean (src/reactive/value.rs:23-25). A clean cell always has a value to hand out. A derived cell whose flag is cleared is dirty, whatever it has cached |
| Nodes.IsDirty | src/reactive.rs:6-8 | Only a derived cell can be dirty, and a derived cell is dirty exactly when its flag is cleared or nothing is cached |
| Nodes.NewValue | src/reactive/value.rs:35-43 | A new source cell is clean and its current value is the given one |
| Nodes.NewExpr | src/reactive/expr.rs:37-45 | A new derived cell has a false flag and no cache, so it is dirty and its closure has not run |
| Nodes.Dirtied | src/reactive/expr.rs:29-30 | Marking a derived cell makes it dirty and keeps its cache, reads and combinator |
| Nodes.Refreshed | src/reactive/expr.rs:47-50 | After the store of recompute the cell is clean and holds exactly the computed value |
| Nodes.ShapeKept | src/reactive/expr.rs:29-50 | Marking and recomputing change only the cache and the flag of a cell, never what it reads or how it combines |
| World.Init | src/lib.rs:14-19 | The empty engine is well formed and has no node and no registered id |
| World.AddNode | src/reactive/value.rs:35-43 | Constructing a node under a fresh id stores it and does not register it |
| World.RegisterNode | src/lib.rs:21-29 | Registering an existing node keeps the node store and well-formedness, and the registry only grows |
| World.SubscribeIn | src/lib.rs:31-39 | Subscribing on the engine state leaves the nodes and the registered ids unchanged. The registry only grows and stays well formed. A registered source gains the edge to the sink |
| World.ClearFlag | src/reactive/expr.rs:29-30 | The flag update dirties exactly the named derived cell and leaves every other node as it was |
| World.OnlyDirtiedShrinks | src/lib.rs:45-52 | A pass that only dirties registered clean cells never increases the number of clean registered cells and never cleans a dirty one. This is the measure under which propagation terminates |
| World.ClearFlagCount | src/reactive/expr.rs:29-30 | Clearing the flag of a registered clean derived cell strictly lowers the clean count |
| World.OnlyDirtiedTrans | src/lib.rs:45-52 | Two dirtying passes in a row are again a dirtying pass |
| Propagation.MarkDirty | src/reactive/expr.rs:29-33 | On a derived cell: the flag is cleared, then the broadcast leaves every registered subscriber of the cell dirty. Apart from dirtying, nothing changes. Only the cell itself and cells downstream of it change, where downstream means reachable through registered, clean derived subscribers. On a source cell (src/reactive/value.rs:27-29) the result is a panic naming that cell. A panic always names a source cell: either the cell itself, or one subscribed to the cell or to a cell downstream of it |
| Propagation.BroadcastDirty | src/lib.rs:41-54 | An unregistered source changes nothing. Otherwise every registered subscriber of the source ends up dirty, and so transitively do the subscribers of every cell the pass dirtied. Only cells downstream of the source change, and only by being dirtied. A panic names a registered source cell that subscribes to the source or to a cell downstream of it. The broadcast cannot panic when all subscribers are derived cells |
| Propagation.BroadcastSet | src/lib.rs:45-52 | The filter/for_each pass leaves every registered member of the set dirty. It only dirties, and only members of the set that were registered and clean, or cells downstream of them. A panic names a registered source cell that is a member of the set, or that subscribes to a live member or to a cell downstream of one |
| Propagation.Write | src/reactive/value.rs:57-61 | A write stores the new value in the source cell. Its registered subscribers are dirty, transitively. The registry is unchanged. Apart from the written cell, only dirtying happens, and only to cells downstream of it. A panic aborts the write and names a registered source cell that subscribes to the written cell or to a cell downstream of it |
| Propagation.Examined | src/lib.rs:46-49 | The filter passes only registered subscribers. It always passes a registered source cell, which is why reaching one panics. A derived cell passes only when its flag is set and a value is cached |
| Propagation.BroadcastExact | src/lib.rs:41-54 | A successful broadcast changes exactly the cells downstream of its source, in both directions |
| Propagation.WriteExact | src/reactive/value.rs:57-61 | Apart from the written cell, a successful write changes exactly the cells downstream of it |
| Propagation.QuietPass | src/lib.rs:46-49 | A pass over subscribers that are all dirty or unregistered changes nothing |
| Propagation.BroadcastIdempotent | src/lib.rs:41-54 | A second broadcast from the same source right after a first one changes nothing |
| Propagation.ValueSinkPanics | src/reactive/value.rs:27-29 | A broadcast panics, whatever the iteration order, when a registered source cell subscribes to the broadcasting cell or to any cell downstream of it (reached through the nested broadcast of a derived cell's `mark_dirty`) |
| Propagation.BroadcastPanics | src/lib.rs:41-54 | A broadcast panics if and only if it reaches a registered source cell, that is, a registered source cell subscribes to the broadcasting cell or to a cell downstream of it |
| Evaluation.Seek | src/reactive/expr.rs:58-64 | Afterwards the node is clean and holds the returned value, so the expect never fires. A clean node returns its current value and leaves the state untouched, which is memoization. Only dirty cells change, kinds and reads are kept, and subscription edges are only added |
| Evaluation.Read | src/reactive/expr.rs:52-56 | Read subscribes the reader to a registered node and then seeks it (also src/reactive/value.rs:45-49) |
| Evaluation.ReadDeps | src/reactive/expr.rs:48 | The closure's reads leave every input clean, return exactly the inputs' current values in order, and subscribe the reader to every registered input |
| Evaluation.Recompute | src/reactive/expr.rs:47-50 | The cell now caches the combinator applied to the current values of its inputs, all of which are clean, and is subscribed to every registered input |
| Evaluation.ReadIsSeek | src/reactive/expr.rs:52-56 | Read returns the same value and leaves the same nodes as seek. The subscription does not affect the result |
| Evaluation.SeekIgnoresReactor | src/reactive/expr.rs:58-64 | The value seek returns and the nodes it leaves do not depend on the subscription edges |
| Coherence.SeekSound | src/reactive/expr.rs:58-64 | On a wired, consistent state, seek returns the node's meaning computed from scratch and keeps the invariants |
| Coherence.ReadSound | src/reactive/expr.rs:52-56 | Read returns the node's meaning and keeps the invariants |
| Coherence.ReadDepsSound | src/reactive/expr.rs:48 | The closure's reads return the meanings of the inputs and keep the invariants |
| Coherence.RecomputeSound | src/reactive/expr.rs:47-50 | Recompute stores the node's meaning and keeps the invariants |
| Coherence.WriteSound | src/reactive/value.rs:57-61 | A write on a state satisfying the invariants does not panic and keeps all three invariants: every cell still clean afterwards caches its meaning under the new value |
| Coherence.CleanSurvivesWrite | src/lib.rs:41-54 | A derived cell still clean after a write is unchanged, and its meaning is unchanged, because the write reached none of its inputs |
| Coherence.WriteThenSeek | src/reactive/value.rs:57-61 | Propagation correctness: after a write, seeking any node yields its meaning computed from scratch with the new value in place. This covers chains and diamonds alike |
| Coherence.ConstructKeeps | src/reactive/expr.rs:37-45 | Constructing and registering a fresh source cell, or a fresh (dirty) derived cell, keeps the invariants |
| Coherence.ReadKeeps | src/reactive/expr.rs:52-56 | A read by a derived cell keeps all three invariants and returns the meaning |
| Coherence.SeekKeeps | src/reactive/expr.rs:58-64 | Seek keeps all three invariants and returns the meaning |
| Scenario.Sources | src/reactive/expr.rs:79-82 | Two registered source cells a = 1 and b = 1 satisfy the invariants and have empty subscriber sets |
| Scenario.Setup | src/reactive/expr.rs:84-85 | Adding and registering sum = a + b keeps the invariants |
| Scenario.SumMeaning | src/reactive/expr.rs:84 | The meaning of sum is the sum of its two sources' values |
| Scenario.SetupIsSum | src/reactive/expr.rs:77-85 | The test's setup is the sum scenario over 1 and 1, with sum not yet computed |
| Scenario.SeekSum | src/reactive/expr.rs:87 | Seeking sum yields x + y and leaves sum clean and subscribed to a |
| Scenario.WriteSum | src/reactive/expr.rs:88 | Writing a keeps the scenario's shape with the new value and dirties sum when it is subscribed |
| Scenario.SumScenario | src/reactive/expr.rs:87 | The first seek of sum returns 2. A second seek returns 2 and changes nothing, so the closure does not run again |
| Scenario.SumAfterWrite | src/reactive/expr.rs:88-89 | After write(a, v), for an i32 v whose successor does not overflow, sum is dirty, the registry is unchanged, and seek(sum) returns v + 1 |
| Scenario.Unwired | src/reactive/expr.rs:79-84 | The same cells with sum constructed but not registered |
| Scenario.UnwiredIsStale | src/lib.rs:46-49 | The unregistered setup has sum dirty and no registered subscriber of a |
| Scenario.FirstSeekUnwired | src/reactive/expr.rs:52-56 | Seeking the unregistered sum computes x + y, and nothing registered becomes a subscriber of a |
| Scenario.WriteSkipsUnwired | src/lib.rs:46-49 | A write to a then only stores the value, because the broadcast's filter skips the unregistered subscriber |
| Scenario.UnregisteredSinkIsStale | src/lib.rs:46-49 | The unregistered sum stays clean after write(a, v) and seek still returns x + y, while its meaning is now v + y |

## Left out

- src/data.rs is an earlier design that is not part of the crate's module tree. It is not modelled.
- src/reactive.rs is taken only for `is_dirty`, the negation of `is_clean`. Its `subscribe` method is implemented by neither node kind.
- `RefCell` borrow conflicts are not modelled. All operations are sequential state transformers, so the runtime panic for overlapping borrows cannot arise.
- UUID generation is random. The model takes the id as a parameter instead: `World.AddNode` requires the id to be absent, and `World.Unused` states what a fresh UUID guarantees.
- The reference handed out by `seek`/`read` (`Ref<T>`) is modelled as a copied value.
- Closures are arbitrary Rust code. The model abstracts each one as a fixed sequence of reads plus a pure combinator, so data-dependent read sets are not covered.
- A closure that reads its own cell, or a cyclic read graph, recurses without end in the source. The model excludes it with a rank precondition (`World.Ranked`) on `seek` and its relatives.
- The number of times a closure runs is not counted. Memoization is stated instead as "seeking a clean cell returns its cache and leaves the whole state unchanged" (`Evaluation.Seek`, `Scenario.SumScenario`).
- Scenario.SumAfterWrite is stated for every `i32` value `v` whose successor is an `i32`; src/reactive/expr.rs:88 writes `2`.
- Scenario.Sum adds unbounded integers, while the test's closure (src/reactive/expr.rs:84) adds `i32` values, which overflow (a panic in debug builds) past `i32::MAX`. `Scenario.SumAfterWrite` therefore requires `v` and `v + 1` to be `i32` values. `Scenario.UnregisteredSinkIsStale` and `Scenario.SeekSum` are stated over unbounded integers, so for the source they hold only where the additions do not overflow.
- Every node keeps its own reactor reference (src/reactive/expr.rs:14, src/reactive/value.rs:13), and `mark_dirty`, `read` and `write` go through it. `World.State` holds one registry, so every node is assumed to use the reactor it is registered in. A node built with one reactor and registered in another is not modelled.
- `Default` and `Debug` implementations, `dbg!` output and the `create_value` test are not modelled: they carry no engine behaviour.
- Propagation.MarkDirty, Propagation.BroadcastDirty, Propagation.BroadcastSet and Propagation.Write are ghost functions, because the choice of the next subscriber stands for an unspecified `HashSet` order. They cannot be executed.

=== FILE: coherence.dfy ===
/** Propagation correctness. `Eval` is the reference meaning of a node: a value node's
    content, or an expression's combinator applied to the meanings of the nodes it reads,
    computed from scratch. `Consistent` is the invariant that makes the engine's lazy,
    memoized answers agree with it: every clean expression caches its meaning, is
    registered, is subscribed to every node it reads, and reads only clean nodes.
    `seek` returns the meaning and keeps the invariant; `write` keeps it too, which is the
    promise that a write invalidates every dependent that could observe it.
 */
module Coherence {
  import opened Registry
  import opened Nodes
  import opened World
  import opened Propagation
  import opened Evaluation

  /** The reference meaning of node `id`, recomputed from scratch. */
  function Eval<V>(nodes: map<Id, Node<V>>, rank: map<Id, nat>, id: Id): V
    requires Ranked(nodes, rank) && id in nodes
    decreases rank[id], 1, 0
  {
    match nodes[id]
    case Value(v) => v
    case Expr(_, _, deps, f) => f(EvalAll(nodes, rank, deps, rank[id]))
  }

  /** The meanings of the nodes `ds`, in order. */
  function EvalAll<V>(nodes: map<Id, Node<V>>, rank: map<Id, nat>, ds: seq<Id>, bound: nat): seq<V>
    requires Ranked(nodes, rank)
    requires forall d :: d in ds ==> d in nodes && rank[d] < bound
    decreases bound, 0, |ds|
  {
    if ds == [] then [] else
      assert forall d :: d in ds[1..] ==> d in ds;
      [Eval(nodes, rank, ds[0])] + EvalAll(nodes, rank, ds[1..], bound)
  }

  /** Every node is registered, and the registry is well formed. */
  predicate Wired<V>(st: State<V>) {
    Wf(st) && st.reactor.data == st.nodes.Keys
  }

  /** What a clean expression node `e` promises. */
  ghost predicate Fresh<V>(st: State<V>, rank: map<Id, nat>, e: Id)
    requires Ranked(st.nodes, rank) && e in st.nodes && st.nodes[e].Expr? && IsClean(st.nodes[e])
  {
    && Current(st.nodes[e]) == Eval(st.nodes, rank, e)
    && e in st.reactor.data
    && forall d :: d in st.nodes[e].deps ==> Edge(st.reactor, d, e) && IsClean(st.nodes[d])
  }

  ghost predicate Consistent<V>(st: State<V>, rank: map<Id, nat>) {
    && Ranked(st.nodes, rank)
    && forall e :: e in st.nodes && st.nodes[e].Expr? && IsClean(st.nodes[e]) ==> Fresh(st, rank, e)
  }

  /** The meaning of a node depends only on the shapes of the nodes, not on caches, flags
      or the particular rank. */
  lemma {:induction false} EvalShape<V>(n1: map<Id, Node<V>>, r1: map<Id, nat>, n2: map<Id, Node<V>>, r2: map<Id, nat>, id: Id)
    requires Ranked(n1, r1) && Ranked(n2, r2) && id in n1
    requires forall x :: x in n1 ==> x in n2 && Shape(n1[x]) == Shape(n2[x])
    ensures Eval(n1, r1, id) == Eval(n2, r2, id)
    decreases r1[id]
  {
    assert Shape(n1[id]) == Shape(n2[id]);
    if n1[id].Expr? {
      var deps := n1[id].deps;
      forall d | d in deps
        ensures Eval(n1, r1, d) == Eval(n2, r2, d)
      {
        EvalShape(n1, r1, n2, r2, d);
      }
      EvalAllPointwise(n1, r1, n2, r2, deps, r1[id], r2[id]);
    }
  }

  /** Pointwise equal meanings give equal meaning sequences. */
  lemma {:induction false} EvalAllPointwise<V>(n1: map<Id, Node<V>>, r1: map<Id, nat>, n2: map<Id, Node<V>>, r2: map<Id, nat>,
                                               ds: seq<Id>, b1: nat, b2: nat)
    requires Ranked(n1, r1) && Ranked(n2, r2)
    requires forall d :: d in ds ==> d in n1 && r1[d] < b1
    requires forall d :: d in ds ==> d in n2 && r2[d] < b2
    requires forall d :: d in ds ==> Eval(n1, r1, d) == Eval(n2, r2, d)
    ensures EvalAll(n1, r1, ds, b1) == EvalAll(n2, r2, ds, b2)
    decreases |ds|
  {
    if ds != [] {
      assert forall d :: d in ds[1..] ==> d in ds;
      EvalAllPointwise(n1, r1, n2, r2, ds[1..], b1, b2);
    }
  }

  /** Evaluation steps keep the meaning of every node. */
  lemma EvalStepKeepsEval<V>(st: State<V>, st': State<V>, rank: map<Id, nat>)
    requires EvalStep(st, st') && Ranked(st.nodes, rank) && Ranked(st'.nodes, rank)
    ensures forall x :: x in st.nodes ==> Eval(st'.nodes, rank, x) == Eval(st.nodes, rank, x)
  {
    forall x | x in st.nodes
      ensures Eval(st'.nodes, rank, x) == Eval(st.nodes, rank, x)
    {
      EvalShape(st.nodes, rank, st'.nodes, rank, x);
    }
  }

  /** Adding subscription edges keeps the invariants. */
  lemma SubscribeKeeps<V>(st: State<V>, rank: map<Id, nat>, source: Id, sink: Id)
    requires Wired(st) && Consistent(st, rank)
    ensures Wired(SubscribeIn(st, source, sink)) && Consistent(SubscribeIn(st, source, sink), rank)
  {
    var st' := SubscribeIn(st, source, sink);
    forall e | e in st'.nodes && st'.nodes[e].Expr? && IsClean(st'.nodes[e])
      ensures Fresh(st', rank, e)
    {
      assert Fresh(st, rank, e);
    }
  }

  /** `seek` returns the meaning of the node and keeps the invariants. */
  lemma {:induction false} SeekSound<V>(st: State<V>, rank: map<Id, nat>, id: Id)
    requires Wired(st) && Consistent(st, rank) && id in st.nodes
    ensures Seek(st, rank, id).1 == Eval(st.nodes, rank, id)
    ensures Wired(Seek(st, rank, id).0) && Consistent(Seek(st, rank, id).0, rank)
    decreases rank[id], 2, 0
  {
    if IsClean(st.nodes[id]) {
      if st.nodes[id].Expr? {
        assert Fresh(st, rank, id);
      }
    } else {
      RecomputeSound(st, rank, id);
    }
  }

  /** `read` returns the meaning of the node and keeps the invariants. */
  lemma {:induction false} ReadSound<V>(st: State<V>, rank: map<Id, nat>, id: Id, reader: Id)
    requires Wired(st) && Consistent(st, rank) && id in st.nodes
    ensures Read(st, rank, id, reader).1 == Eval(st.nodes, rank, id)
    ensures Wired(Read(st, rank, id, reader).0) && Consistent(Read(st, rank, id, reader).0, rank)
    decreases rank[id], 3, 0
  {
    SubscribeKeeps(st, rank, id, reader);
    SeekSound(SubscribeIn(st, id, reader), rank, id);
  }

  /** The closure's reads deliver the meanings of the nodes read and keep the invariants. */
  lemma {:induction false} ReadDepsSound<V>(st: State<V>, rank: map<Id, nat>, ds: seq<Id>, reader: Id)
    requires Wired(st) && Consistent(st, rank) && reader in rank
    requires forall d :: d in ds ==> d in st.nodes && rank[d] < rank[reader]
    ensures ReadDeps(st, rank, ds, reader).1 == EvalAll(st.nodes, rank, ds, rank[reader])
    ensures Wired(ReadDeps(st, rank, ds, reader).0) && Consistent(ReadDeps(st, rank, ds, reader).0, rank)
    decreases rank[reader], 0, |ds|
  {
    if ds != [] {
      var r1 := Read(st, rank, ds[0], reader);
      ReadSound(st, rank, ds[0], reader);
      assert forall d :: d in ds[1..] ==> d in ds;
      ReadDepsSound(r1.0, rank, ds[1..], reader);
      EvalStepKeepsEval(st, r1.0, rank);
      EvalAllPointwise(r1.0.nodes, rank, st.nodes, rank, ds[1..], rank[reader], rank[reader]);
    }
  }

  /** `recompute` stores the meaning of the node and keeps the invariants. */
  lemma {:induction false} RecomputeSound<V>(st: State<V>, rank: map<Id, nat>, id: Id)
    requires Wired(st) && Consistent(st, rank) && id in st.nodes && st.nodes[id].Expr? && IsDirty(st.nodes[id])
    ensures Recompute(st, rank, id).1 == Eval(st.nodes, rank, id)
    ensures Wired(Recompute(st, rank, id).0) && Consistent(Recompute(st, rank, id).0, rank)
    decreases rank[id], 1, 0
  {
    var n := st.nodes[id];
    var r1 := ReadDeps(st, rank, n.deps, id);
    ReadDepsSound(st, rank, n.deps, id);
    var r := Recompute(st, rank, id);
    var st1 := r1.0;
    assert r.1 == n.f(r1.1) && r.0 == st1.(nodes := st1.nodes[id := Refreshed(st1.nodes[id], r.1)]);
    EvalStepKeepsEval(st, st1, rank);
    assert Shape(st1.nodes[id]) == Shape(n);
    assert r.1 == Eval(st1.nodes, rank, id);
    forall d | d in n.deps
      ensures IsClean(st1.nodes[d]) && Edge(st1.reactor, d, id)
    {
    }
    StoreFresh(st1, rank, id, r.1);
  }

  /** Storing the meaning of an expression whose reads are all clean and subscribed keeps
      the invariants. */
  lemma StoreFresh<V>(st1: State<V>, rank: map<Id, nat>, id: Id, v: V)
    requires Wired(st1) && Consistent(st1, rank) && id in st1.nodes && st1.nodes[id].Expr?
    requires v == Eval(st1.nodes, rank, id)
    requires forall d :: d in st1.nodes[id].deps ==> IsClean(st1.nodes[d]) && Edge(st1.reactor, d, id)
    ensures Wired(st1.(nodes := st1.nodes[id := Refreshed(st1.nodes[id], v)]))
    ensures Consistent(st1.(nodes := st1.nodes[id := Refreshed(st1.nodes[id], v)]), rank)
  {
    var st2 := st1.(nodes := st1.nodes[id := Refreshed(st1.nodes[id], v)]);
    assert SameShape(st1.nodes, st2.nodes) by {
      assert Shape(st2.nodes[id]) == Shape(st1.nodes[id]);
    }
    SameShapeRanked(st1.nodes, st2.nodes, rank);
    forall x | x in st1.nodes
      ensures Eval(st2.nodes, rank, x) == Eval(st1.nodes, rank, x)
    {
      EvalShape(st1.nodes, rank, st2.nodes, rank, x);
    }
    forall e | e in st2.nodes && st2.nodes[e].Expr? && IsClean(st2.nodes[e])
      ensures Fresh(st2, rank, e)
    {
      if e != id {
        assert st2.nodes[e] == st1.nodes[e];
        assert Fresh(st1, rank, e);
      }
    }
  }

  /** A write on a well-wired, consistent state whose subscribers are all expressions
      cannot panic, and it keeps the invariants: every clean expression afterwards still
      caches its meaning under the new value. */
  lemma WriteSound<V>(st: State<V>, rank: map<Id, nat>, a: Id, v: V)
    requires Wired(st) && Consistent(st, rank) && SinksAreExprs(st)
    requires a in st.nodes && st.nodes[a].Value?
    ensures Write(st, a, v).Ok?
    ensures Wired(Write(st, a, v).value) && Consistent(Write(st, a, v).value, rank)
    ensures SinksAreExprs(Write(st, a, v).value)
  {
    var st' := Write(st, a, v).value;
    WriteRanked(st, rank, a, v);
    forall e | e in st'.nodes && st'.nodes[e].Expr? && IsClean(st'.nodes[e])
      ensures Fresh(st', rank, e)
    {
      CleanSurvivesWrite(st, st', rank, a, e);
    }
    WriteSinks(st, a, v);
  }

  /** A write keeps the rank witness: it changes no node's reads. */
  lemma WriteRanked<V>(st: State<V>, rank: map<Id, nat>, a: Id, v: V)
    requires Wf(st) && Ranked(st.nodes, rank) && SinksAreExprs(st)
    requires a in st.nodes && st.nodes[a].Value?
    ensures Write(st, a, v).Ok? && Ranked(Write(st, a, v).value.nodes, rank)
  {
    var st' := Write(st, a, v).value;
    forall x, d | x in st'.nodes && st'.nodes[x].Expr? && d in st'.nodes[x].deps
      ensures d in st'.nodes && rank[d] < rank[x]
    {
      assert x != a;
      assert Shape(st'.nodes[x]) == Shape(st.nodes[x]);
    }
  }

  /** A write keeps every subscriber a derived cell: it changes no node's kind. */
  lemma WriteSinks<V>(st: State<V>, a: Id, v: V)
    requires Wf(st) && SinksAreExprs(st)
    requires a in st.nodes && st.nodes[a].Value?
    ensures Write(st, a, v).Ok? && SinksAreExprs(Write(st, a, v).value)
  {
    var st' := Write(st, a, v).value;
    forall y, x | y in st'.reactor.subscriptions && x in st'.reactor.subscriptions[y] && x in st'.reactor.data && x in st'.nodes
      ensures st'.nodes[x].Expr?
    {
      assert st.nodes[x].Expr?;
      assert x != a;
    }
  }

  /** An expression still clean after a write was clean before, with the same cache, and
      its meaning has not changed: the write reached no node it depends on. */
  lemma {:induction false} CleanSurvivesWrite<V>(st: State<V>, st': State<V>, rank: map<Id, nat>, a: Id, e: Id)
    requires Wired(st) && Consistent(st, rank)
    requires a in st.nodes && st.nodes[a].Value? && Ranked(st'.nodes, rank)
    requires st'.reactor == st.reactor && st'.nodes.Keys == st.nodes.Keys && st'.nodes[a].Value?
    requires OnlyDirtied(st, st'.(nodes := st'.nodes[a := st.nodes[a]]))
    requires Settled(st', a) && NewlySettled(st, st')
    requires e in st'.nodes && st'.nodes[e].Expr? && IsClean(st'.nodes[e])
    ensures st'.nodes[e] == st.nodes[e]
    ensures Eval(st'.nodes, rank, e) == Eval(st.nodes, rank, e)
    ensures Fresh(st', rank, e)
    decreases rank[e]
  {
    var restored := st'.(nodes := st'.nodes[a := st.nodes[a]]);
    assert e != a;
    assert restored.nodes[e] == st'.nodes[e];
    assert st'.nodes[e] == st.nodes[e];
    assert Fresh(st, rank, e);
    var deps := st.nodes[e].deps;
    forall d | d in deps
      ensures d != a && IsClean(st'.nodes[d]) && Eval(st'.nodes, rank, d) == Eval(st.nodes, rank, d)
    {
      assert Edge(st.reactor, d, e);
      assert !Edge(st'.reactor, a, e);
      assert restored.nodes[d] == st'.nodes[d];
      assert !Settled(st', d);
      if st'.nodes[d].Expr? {
        CleanSurvivesWrite(st, st', rank, a, d);
      } else {
        assert st'.nodes[d] == st.nodes[d];
      }
    }
    EvalAllPointwise(st'.nodes, rank, st.nodes, rank, deps, rank[e], rank[e]);
  }

  /** Propagation correctness: after a write to a source, seeking any node yields its
      meaning computed from scratch with the new value in place. */
  lemma WriteThenSeek<V>(st: State<V>, rank: map<Id, nat>, a: Id, v: V, c: Id)
    requires Wired(st) && Consistent(st, rank) && SinksAreExprs(st)
    requires a in st.nodes && st.nodes[a].Value? && c in st.nodes
    ensures Write(st, a, v).Ok?
    ensures Ranked(st.nodes[a := Value(v)], rank) && Ranked(Write(st, a, v).value.nodes, rank)
    ensures c in Write(st, a, v).value.nodes
    ensures Seek(Write(st, a, v).value, rank, c).1 == Eval(st.nodes[a := Value(v)], rank, c)
  {
    WriteSound(st, rank, a, v);
    var st' := Write(st, a, v).value;
    SeekSound(st', rank, c);
    var target := st.nodes[a := Value(v)];
    SameShapeRanked(st'.nodes, target, rank);
    EvalShape(st'.nodes, rank, target, rank, c);
  }

  /** Constructing a value node, or an expression node (which starts dirty), and
      registering it keeps the invariants, for any rank that covers the new node. */
  lemma ConstructKeeps<V>(st: State<V>, rank: map<Id, nat>, rank': map<Id, nat>, id: Id, n: Node<V>)
    requires Wired(st) && Consistent(st, rank) && SinksAreExprs(st)
    requires Unused(st, id) && (n.Value? || IsDirty(n))
    requires Ranked(st.nodes[id := n], rank')
    ensures Wired(RegisterNode(AddNode(st, id, n), id))
    ensures Consistent(RegisterNode(AddNode(st, id, n), id), rank')
    ensures SinksAreExprs(RegisterNode(AddNode(st, id, n), id))
  {
    var st' := RegisterNode(AddNode(st, id, n), id);
    assert st'.reactor.subscriptions == st.reactor.subscriptions[id := {}];
    forall e | e in st'.nodes && st'.nodes[e].Expr? && IsClean(st'.nodes[e])
      ensures Fresh(st', rank', e)
    {
      assert e != id && st'.nodes[e] == st.nodes[e];
      assert Fresh(st, rank, e);
      EvalShape(st.nodes, rank, st'.nodes, rank', e);
      forall d | d in st.nodes[e].deps
        ensures Edge(st'.reactor, d, e) && IsClean(st'.nodes[d])
      {
        assert d != id;
      }
    }
  }

  /** `read` by an expression node, or by an id that is not a registered value node,
      returns the meaning of the node read and keeps all three invariants. */
  lemma ReadKeeps<V>(st: State<V>, rank: map<Id, nat>, id: Id, reader: Id)
    requires Wired(st) && Consistent(st, rank) && SinksAreExprs(st) && id in st.nodes
    requires reader in st.reactor.data ==> st.nodes[reader].Expr?
    ensures Read(st, rank, id, reader).1 == Eval(st.nodes, rank, id)
    ensures Wired(Read(st, rank, id, reader).0) && Consistent(Read(st, rank, id, reader).0, rank)
    ensures SinksAreExprs(Read(st, rank, id, reader).0)
  {
    ReadSound(st, rank, id, reader);
    var st' := Read(st, rank, id, reader).0;
    forall y, x | y in st'.reactor.subscriptions && x in st'.reactor.subscriptions[y] && x in st'.reactor.data && x in st'.nodes
      ensures st'.nodes[x].Expr?
    {
      assert Edge(st'.reactor, y, x);
      assert Shape(st.nodes[x]) == Shape(st'.nodes[x]);
    }
  }

  /** `seek` keeps all three invariants. */
  lemma SeekKeeps<V>(st: State<V>, rank: map<Id, nat>, id: Id)
    requires Wired(st) && Consistent(st, rank) && SinksAreExprs(st) && id in st.nodes
    ensures Seek(st, rank, id).1 == Eval(st.nodes, rank, id)
    ensures Wired(Seek(st, rank, id).0) && Consistent(Seek(st, rank, id).0, rank)
    ensures SinksAreExprs(Seek(st, rank, id).0)
  {
    SeekSound(st, rank, id);
    var st' := Seek(st, rank, id).0;
    forall y, x | y in st'.reactor.subscriptions && x in st'.reactor.subscriptions[y] && x in st'.reactor.data && x in st'.nodes
      ensures st'.nodes[x].Expr?
    {
      assert Edge(st'.reactor, y, x);
      assert Shape(st.nodes[x]) == Shape(st'.nodes[x]);
    }
  }
}

=== FILE: evaluation.dfy ===
/** Lazy, memoized evaluation: `seek` and `read` of both node kinds and
    `ReactiveExpr::recompute`.

    A derived node's closure calls `read(own id)` on each node it depends on, in order,
    and combines the values; `ReadDeps` is that call sequence. Recursion is bounded by a
    caller-supplied rank (see `Ranked`); a self-referential or cyclic closure, which
    would recurse without end in the source, is excluded by that precondition.
 */
module Evaluation {
  import opened Registry
  import opened Nodes
  import opened World

  /** No node that reports clean is changed. */
  ghost predicate CleanKept<V>(st: State<V>, st': State<V>) {
    forall x :: x in st.nodes && x in st'.nodes && IsClean(st.nodes[x]) ==> st'.nodes[x] == st.nodes[x]
  }

  /** What evaluation may do to a state: keep every node's shape and every clean node,
      keep the registered ids, and only add subscription edges. */
  ghost predicate EvalStep<V>(st: State<V>, st': State<V>) {
    && SameShape(st.nodes, st'.nodes)
    && CleanKept(st, st')
    && st'.reactor.data == st.reactor.data
    && st'.reactor.subscriptions.Keys == st.reactor.subscriptions.Keys
    && Grows(st.reactor, st'.reactor)
  }

  /** Every subscription edge added between `st` and `st'` has as sink one of `readers`
      or an expression node. */
  ghost predicate NewSinks<V>(st: State<V>, st': State<V>, readers: set<Id>) {
    forall s, k :: Edge(st'.reactor, s, k) && !Edge(st.reactor, s, k) ==> k in readers || (k in st.nodes && st.nodes[k].Expr?)
  }

  lemma NewSinksTrans<V>(a: State<V>, b: State<V>, c: State<V>, readers: set<Id>)
    requires EvalStep(a, b) && NewSinks(a, b, readers) && NewSinks(b, c, readers)
    ensures NewSinks(a, c, readers)
  {
    forall s, k | Edge(c.reactor, s, k) && !Edge(a.reactor, s, k)
      ensures k in readers || (k in a.nodes && a.nodes[k].Expr?)
    {
      if !Edge(b.reactor, s, k) && k !in readers {
        assert Shape(a.nodes[k]) == Shape(b.nodes[k]);
      }
    }
  }

  lemma EvalStepTrans<V>(a: State<V>, b: State<V>, c: State<V>)
    requires EvalStep(a, b) && EvalStep(b, c)
    ensures EvalStep(a, c)
  {
  }

  lemma SameShapeRanked<V>(n1: map<Id, Node<V>>, n2: map<Id, Node<V>>, rank: map<Id, nat>)
    requires SameShape(n1, n2) && Ranked(n1, rank)
    ensures Ranked(n2, rank)
  {
    forall x, d | x in n2 && n2[x].Expr? && d in n2[x].deps
      ensures d in n2 && rank[d] < rank[x]
    {
      assert Shape(n1[x]) == Shape(n2[x]);
    }
  }

  /** `seek`. A value node returns its content. A clean expression returns its cache
      without running its closure and without any state change; a dirty one recomputes.
      Either way the node is clean afterwards and holds the returned value, so the
      `expect` of the source never fires. */
  function Seek<V>(st: State<V>, rank: map<Id, nat>, id: Id): (r: (State<V>, V))
    requires id in st.nodes && Ranked(st.nodes, rank)
    ensures EvalStep(st, r.0) && Ranked(r.0.nodes, rank) && NewSinks(st, r.0, {})
    ensures IsClean(r.0.nodes[id]) && Current(r.0.nodes[id]) == r.1
    ensures IsClean(st.nodes[id]) ==> r.0 == st && r.1 == Current(st.nodes[id])
    decreases rank[id], 2, 0
  {
    if IsClean(st.nodes[id]) then
      (st, Current(st.nodes[id]))
    else
      Recompute(st, rank, id)
  }

  /** `read(reader)`: subscribe the reader to this node, then seek. */
  function Read<V>(st: State<V>, rank: map<Id, nat>, id: Id, reader: Id): (r: (State<V>, V))
    requires id in st.nodes && Ranked(st.nodes, rank)
    ensures EvalStep(st, r.0) && Ranked(r.0.nodes, rank) && NewSinks(st, r.0, {reader})
    ensures id in st.reactor.subscriptions ==> Edge(r.0.reactor, id, reader)
    ensures IsClean(r.0.nodes[id]) && Current(r.0.nodes[id]) == r.1
    decreases rank[id], 3, 0
  {
    var st1 := SubscribeIn(st, id, reader);
    var r := Seek(st1, rank, id);
    EvalStepTrans(st, st1, r.0);
    NewSinksTrans(st, st1, r.0, {reader});
    r
  }

  /** The reads a closure performs: `read(reader)` on each node in `ds`, in order. */
  function ReadDeps<V>(st: State<V>, rank: map<Id, nat>, ds: seq<Id>, reader: Id): (r: (State<V>, seq<V>))
    requires Ranked(st.nodes, rank) && reader in rank
    requires forall d :: d in ds ==> d in st.nodes && rank[d] < rank[reader]
    ensures EvalStep(st, r.0) && Ranked(r.0.nodes, rank) && NewSinks(st, r.0, {reader})
    ensures forall d :: d in ds ==> IsClean(r.0.nodes[d])
    ensures r.1 == Snapshot(r.0.nodes, ds)
    ensures forall d :: d in ds && d in st.reactor.subscriptions ==> Edge(r.0.reactor, d, reader)
    decreases rank[reader], 0, |ds|
  {
    if ds == [] then
      (st, [])
    else
      var (st1, v) := Read(st, rank, ds[0], reader);
      var (st2, vs) := ReadDeps(st1, rank, ds[1..], reader);
      EvalStepTrans(st, st1, st2);
      NewSinksTrans(st, st1, st2, {reader});
      assert forall d :: d in ds[1..] ==> d in ds;
      (st2, [v] + vs)
  }

  /** `recompute`: run the closure with the node's own id as reader, store the result
      and set the flag. */
  function Recompute<V>(st: State<V>, rank: map<Id, nat>, id: Id): (r: (State<V>, V))
    requires id in st.nodes && st.nodes[id].Expr? && IsDirty(st.nodes[id]) && Ranked(st.nodes, rank)
    ensures EvalStep(st, r.0) && Ranked(r.0.nodes, rank) && NewSinks(st, r.0, {})
    ensures r.0.nodes[id] == Refreshed(st.nodes[id], r.1)
    ensures forall d :: d in st.nodes[id].deps ==> IsClean(r.0.nodes[d])
    ensures r.1 == st.nodes[id].f(Snapshot(r.0.nodes, st.nodes[id].deps))
    ensures forall d :: d in st.nodes[id].deps && d in st.reactor.subscriptions ==> Edge(r.0.reactor, d, id)
    decreases rank[id], 1, 0
  {
    var n := st.nodes[id];
    var (st1, vs) := ReadDeps(st, rank, n.deps, id);
    var v := n.f(vs);
    var st2 := st1.(nodes := st1.nodes[id := Refreshed(st1.nodes[id], v)]);
    StoreStep(st, st1, rank, id, v);
    assert NewSinks(st, st2, {}) by {
      assert NewSinks(st, st1, {id});
    }
    (st2, v)
  }

  /** The final store of `recompute` keeps what the closure's reads established. */
  lemma StoreStep<V>(st: State<V>, st1: State<V>, rank: map<Id, nat>, id: Id, v: V)
    requires id in st.nodes && st.nodes[id].Expr? && IsDirty(st.nodes[id]) && Ranked(st.nodes, rank)
    requires EvalStep(st, st1)
    requires forall d :: d in st.nodes[id].deps ==> IsClean(st1.nodes[d])
    ensures st1.nodes[id].Expr?
    ensures var st2 := st1.(nodes := st1.nodes[id := Refreshed(st1.nodes[id], v)]);
      && EvalStep(st, st2) && Ranked(st2.nodes, rank)
      && st2.nodes[id] == Refreshed(st.nodes[id], v)
      && (forall d :: d in st.nodes[id].deps ==> IsClean(st2.nodes[d]))
      && Snapshot(st2.nodes, st.nodes[id].deps) == Snapshot(st1.nodes, st.nodes[id].deps)
  {
    var n := st.nodes[id];
    assert Shape(st1.nodes[id]) == Shape(n);
    var st2 := st1.(nodes := st1.nodes[id := Refreshed(st1.nodes[id], v)]);
    assert Shape(st2.nodes[id]) == Shape(n);
    assert SameShape(st.nodes, st2.nodes);
    SameShapeRanked(st.nodes, st2.nodes, rank);
    forall d | d in n.deps
      ensures d != id
    {
      assert rank[d] < rank[id];
    }
    var a := Snapshot(st2.nodes, n.deps);
    var b := Snapshot(st1.nodes, n.deps);
    assert |a| == |b|;
    forall i | 0 <= i < |a|
      ensures a[i] == b[i]
    {
      assert n.deps[i] in n.deps;
    }
  }

  /** The value `seek` returns and the nodes it leaves behind do not depend on the
      subscription edges. */
  lemma {:induction false} SeekIgnoresReactor<V>(st: State<V>, st': State<V>, rank: map<Id, nat>, id: Id)
    requires id in st.nodes && Ranked(st.nodes, rank) && st'.nodes == st.nodes
    ensures Seek(st', rank, id).1 == Seek(st, rank, id).1
    ensures Seek(st', rank, id).0.nodes == Seek(st, rank, id).0.nodes
    decreases rank[id], 2, 0
  {
    if IsDirty(st.nodes[id]) {
      RecomputeIgnoresReactor(st, st', rank, id);
    }
  }

  lemma {:induction false} RecomputeIgnoresReactor<V>(st: State<V>, st': State<V>, rank: map<Id, nat>, id: Id)
    requires id in st.nodes && st.nodes[id].Expr? && IsDirty(st.nodes[id]) && Ranked(st.nodes, rank)
    requires st'.nodes == st.nodes
    ensures Recompute(st', rank, id).1 == Recompute(st, rank, id).1
    ensures Recompute(st', rank, id).0.nodes == Recompute(st, rank, id).0.nodes
    decreases rank[id], 1, 0
  {
    ReadDepsIgnoresReactor(st, st', rank, st.nodes[id].deps, id);
  }

  lemma {:induction false} ReadDepsIgnoresReactor<V>(st: State<V>, st': State<V>, rank: map<Id, nat>, ds: seq<Id>, reader: Id)
    requires Ranked(st.nodes, rank) && reader in rank && st'.nodes == st.nodes
    requires forall d :: d in ds ==> d in st.nodes && rank[d] < rank[reader]
    ensures ReadDeps(st', rank, ds, reader).1 == ReadDeps(st, rank, ds, reader).1
    ensures ReadDeps(st', rank, ds, reader).0.nodes == ReadDeps(st, rank, ds, reader).0.nodes
    decreases rank[reader], 0, |ds|
  {
    if ds != [] {
      var st1 := SubscribeIn(st, ds[0], reader);
      var st1' := SubscribeIn(st', ds[0], reader);
      SeekIgnoresReactor(st1, st1', rank, ds[0]);
      var r := Read(st, rank, ds[0], reader);
      var r' := Read(st', rank, ds[0], reader);
      assert forall d :: d in ds[1..] ==> d in ds;
      ReadDepsIgnoresReactor(r.0, r'.0, rank, ds[1..], reader);
    }
  }

  /** `read(reader)` returns exactly what `seek` returns and leaves the same nodes. */
  lemma ReadIsSeek<V>(st: State<V>, rank: map<Id, nat>, id: Id, reader: Id)
    requires id in st.nodes && Ranked(st.nodes, rank)
    ensures Read(st, rank, id, reader).1 == Seek(st, rank, id).1
    ensures Read(st, rank, id, reader).0.nodes == Seek(st, rank, id).0.nodes
  {
    SeekIgnoresReactor(SubscribeIn(st, id, reader), st, rank, id);
  }
}

=== FILE: nodes.dfy ===
/** The two node kinds behind the registry: the source cell `ReactiveValue`
    (src/reactive/value.rs) and the derived cell `ReactiveExpr` (src/reactive/expr.rs),
    seen through the node interface `is_clean` / `is_dirty` / `mark_dirty`.
 */
module Nodes {
  import opened Registry

  datatype Option<T> = None | Some(value: T)

  /** The result of an operation that may reach the fatal `mark_dirty` of a value node;
      a panic carries the id its message names. */
  datatype Outcome<T> = Ok(value: T) | Panic(culprit: Id)

  /** A node. A derived node's closure is abstracted as the ids it reads, in order,
      and a pure combinator of the values read. */
  datatype Node<!V> =
    | Value(v: V)
    | Expr(cache: Option<V>, clean: bool, deps: seq<Id>, f: seq<V> -> V)

  /** `is_clean`: a value is always clean; an expression is clean when its flag is set
      and a value is cached. */
  predicate IsClean<V>(n: Node<V>): (b: bool)
    ensures n.Value? ==> b
    ensures b ==> n.Value? || n.cache.Some?
    ensures n.Expr? && !n.clean ==> !b
  {
    match n
    case Value(_) => true
    case Expr(cache, clean, _, _) => clean && cache.Some?
  }

  /** `is_dirty`, the default method of the node interface. */
  predicate IsDirty<V>(n: Node<V>): (b: bool)
    ensures b ==> n.Expr?
    ensures n.Expr? ==> (b <==> !n.clean || n.cache.None?)
  {
    !IsClean(n)
  }

  /** The value a clean node hands out without recomputation. */
  function Current<V>(n: Node<V>): V
    requires IsClean(n)
  {
    match n
    case Value(v) => v
    case Expr(cache, _, _, _) => cache.value
  }

  /** `ReactiveValue::new`: a source cell holding `v`. */
  function NewValue<V>(v: V): (n: Node<V>)
    ensures IsClean(n) && Current(n) == v
  {
    Value(v)
  }

  /** `ReactiveExpr::new`: the flag is false and nothing is cached, so the node is dirty
      and its combinator has not been applied. */
  function NewExpr<V>(deps: seq<Id>, f: seq<V> -> V): (n: Node<V>)
    ensures n.Expr? && IsDirty(n) && !n.clean && n.cache.None?
    ensures n.deps == deps && n.f == f
  {
    Expr(None, false, deps, f)
  }

  /** The flag update of `ReactiveExpr::mark_dirty`: the node becomes dirty, its cache,
      reads and combinator are kept. */
  function Dirtied<V>(n: Node<V>): (n': Node<V>)
    requires n.Expr?
    ensures n'.Expr? && IsDirty(n')
    ensures n'.cache == n.cache && n'.deps == n.deps && n'.f == n.f
  {
    n.(clean := false)
  }

  /** The store of `ReactiveExpr::recompute`: the node becomes clean and holds `v`. */
  function Refreshed<V>(n: Node<V>, v: V): (n': Node<V>)
    requires n.Expr?
    ensures n'.Expr? && IsClean(n') && Current(n') == v
    ensures n'.deps == n.deps && n'.f == n.f
  {
    n.(cache := Some(v), clean := true)
  }

  /** The part of a node that no reactive operation other than a write changes: the kind,
      a value node's content, an expression's reads and combinator. */
  function Shape<V>(n: Node<V>): Node<V> {
    match n
    case Value(_) => n
    case Expr(_, _, deps, f) => Expr(None, false, deps, f)
  }

  /** Marking dirty and recomputing both keep the shape of a node. */
  lemma ShapeKept<V>(n: Node<V>, v: V)
    requires n.Expr?
    ensures Shape(Dirtied(n)) == Shape(n) && Shape(Refreshed(n, v)) == Shape(n)
    ensures IsDirty(Dirtied(n)) && IsClean(Refreshed(n, v))
  {
  }
}

=== FILE: propagation.dfy ===
/** Dirty propagation: `Reactor::broadcast_dirty` (src/lib.rs), the `mark_dirty` of both
    node kinds, and `ReactiveValue::write`.

    The source iterates a `HashSet`, whose order is unspecified. `BroadcastSet` takes the
    next subscriber with a choice (`:|`) about which nothing is known, so every property
    proved here holds whichever order the iteration follows.
 */
module Propagation {
  import opened Registry
  import opened Nodes
  import opened World

  /** The filter of `broadcast_dirty`: the subscriber is registered and reports clean at
      the moment it is examined. */
  predicate Examined<V>(st: State<V>, x: Id): (b: bool)
    requires Wf(st)
    ensures b ==> x in st.reactor.data
    ensures x in st.reactor.data && st.nodes[x].Value? ==> b
    ensures b && st.nodes[x].Expr? ==> st.nodes[x].clean && st.nodes[x].cache.Some?
  {
    x in st.reactor.data && IsClean(st.nodes[x])
  }

  /** Every registered subscriber of `y` is dirty. */
  ghost predicate Settled<V>(st: State<V>, y: Id) {
    y in st.reactor.subscriptions ==>
      forall x :: x in st.reactor.subscriptions[y] && x in st.reactor.data && x in st.nodes ==> IsDirty(st.nodes[x])
  }

  /** Every node that went from clean in `st` to dirty in `st'` has had its registered
      subscribers made dirty as well. */
  ghost predicate NewlySettled<V>(st: State<V>, st': State<V>) {
    forall y :: y in st.nodes && y in st'.nodes && IsClean(st.nodes[y]) && IsDirty(st'.nodes[y]) ==> Settled(st', y)
  }

  /** No registered node subscribed to anything is a value node. */
  ghost predicate SinksAreExprs<V>(st: State<V>) {
    forall y, x :: y in st.reactor.subscriptions && x in st.reactor.subscriptions[y] && x in st.reactor.data && x in st.nodes ==> st.nodes[x].Expr?
  }

  lemma KeepsSinks<V>(st: State<V>, st': State<V>)
    requires st'.reactor == st.reactor && SameShape(st.nodes, st'.nodes)
    ensures SinksAreExprs(st) ==> SinksAreExprs(st')
    ensures forall x :: x in st.nodes ==> st'.nodes[x].Expr? == st.nodes[x].Expr?
  {
  }

  /** `y` is a registered derived node that reports clean: one a broadcast can reach. */
  ghost predicate Live<V>(st: State<V>, y: Id) {
    y in st.reactor.data && y in st.nodes && st.nodes[y].Expr? && IsClean(st.nodes[y])
  }

  /** Node `y` exists in both states and differs between them. */
  ghost predicate Changed<V>(st: State<V>, st': State<V>, y: Id) {
    y in st.nodes && y in st'.nodes && st'.nodes[y] != st.nodes[y]
  }

  /** A chain of subscription edges whose every node after the first is live. */
  ghost predicate Path<V>(st: State<V>, p: seq<Id>) {
    |p| >= 2 && forall i :: 0 < i < |p| ==> Edge(st.reactor, p[i - 1], p[i]) && Live(st, p[i])
  }

  /** `y` can be reached from `source` through registered, clean derived subscribers. */
  ghost predicate Downstream<V>(st: State<V>, source: Id, y: Id) {
    exists p :: Path(st, p) && p[0] == source && p[|p| - 1] == y
  }

  /** `y` is a live member of `todo` or downstream of one. */
  ghost predicate DownstreamOf<V>(st: State<V>, todo: set<Id>, y: Id) {
    exists x :: x in todo && Live(st, x) && (y == x || Downstream(st, x, y))
  }

  /** `c` subscribes to `source` or to a cell downstream of it, so the broadcast from
      `source` reaches `c`. */
  ghost predicate Reaches<V>(st: State<V>, source: Id, c: Id) {
    exists e :: (e == source || Downstream(st, source, e)) && Edge(st.reactor, e, c)
  }

  /** `c` is a member of `todo` or subscribes to a live member or a cell downstream of one. */
  ghost predicate ReachesFrom<V>(st: State<V>, todo: set<Id>, c: Id) {
    c in todo || exists e :: DownstreamOf(st, todo, e) && Edge(st.reactor, e, c)
  }

  /** `st'` has the registry of `st` and no live node that `st` lacks. */
  ghost predicate FewerLive<V>(st: State<V>, st': State<V>) {
    st'.reactor == st.reactor && forall z :: Live(st', z) ==> Live(st, z)
  }

  lemma OnlyDirtiedFewerLive<V>(st: State<V>, st': State<V>)
    requires OnlyDirtied(st, st')
    ensures FewerLive(st, st')
  {
    forall z | Live(st', z)
      ensures Live(st, z)
    {
      assert st'.nodes[z] == st.nodes[z];
    }
  }

  lemma ClearFlagFewerLive<V>(st: State<V>, x: Id)
    requires x in st.nodes
    ensures FewerLive(st, ClearFlag(st, x))
  {
    var st' := ClearFlag(st, x);
    forall z | Live(st', z)
      ensures Live(st, z)
    {
      if z != x {
        assert st'.nodes[z] == st.nodes[z];
      }
    }
  }

  /** A path through fewer live nodes is a path in the larger state. */
  lemma DownstreamMono<V>(st: State<V>, st': State<V>, source: Id, y: Id)
    requires FewerLive(st, st') && Downstream(st', source, y)
    ensures Downstream(st, source, y)
  {
    var p :| Path(st', p) && p[0] == source && p[|p| - 1] == y;
    assert Path(st, p);
  }

  lemma DownstreamOfMono<V>(st: State<V>, st': State<V>, todo: set<Id>, todo': set<Id>, y: Id)
    requires FewerLive(st, st') && todo' <= todo && DownstreamOf(st', todo', y)
    ensures DownstreamOf(st, todo, y)
  {
    var x :| x in todo' && Live(st', x) && (y == x || Downstream(st', x, y));
    if y != x {
      DownstreamMono(st, st', x, y);
    }
  }

  /** A live subscriber of `source` extends every path from it by one edge. */
  lemma DownstreamStep<V>(st: State<V>, source: Id, x: Id, y: Id)
    requires Edge(st.reactor, source, x) && Live(st, x) && (y == x || Downstream(st, x, y))
    ensures Downstream(st, source, y)
  {
    if y == x {
      assert Path(st, [source, x]);
    } else {
      var p :| Path(st, p) && p[0] == x && p[|p| - 1] == y;
      var q := [source] + p;
      forall i | 0 < i < |q|
        ensures Edge(st.reactor, q[i - 1], q[i]) && Live(st, q[i])
      {
        assert q[i] == p[i - 1];
        if i > 1 {
          assert q[i - 1] == p[i - 2];
        }
      }
      assert Path(st, q) && q[0] == source && q[|q| - 1] == y;
    }
  }

  /** The broadcast from `source` changes only nodes downstream of it. */
  lemma SubscribersDownstream<V>(st: State<V>, st': State<V>, source: Id)
    requires source in st.reactor.subscriptions
    requires forall y :: Changed(st, st', y) ==> DownstreamOf(st, st.reactor.subscriptions[source], y)
    ensures forall y :: Changed(st, st', y) ==> Downstream(st, source, y)
  {
    forall y | Changed(st, st', y)
      ensures Downstream(st, source, y)
    {
      var x :| x in st.reactor.subscriptions[source] && Live(st, x) && (y == x || Downstream(st, x, y));
      DownstreamStep(st, source, x, y);
    }
  }

  /** `mark_dirty`. On a value node it is the fatal panic naming that node; on an
      expression it clears the flag, keeps the cache and broadcasts from the node's id. */
  ghost function MarkDirty<V>(st: State<V>, x: Id): (r: Outcome<State<V>>)
    requires Wf(st) && x in st.nodes
    ensures r.Ok? ==> st.nodes[x].Expr? && Wf(r.value) && OnlyDirtied(ClearFlag(st, x), r.value)
    ensures r.Ok? ==> r.value.nodes[x] == Dirtied(st.nodes[x]) && Settled(r.value, x) && NewlySettled(st, r.value)
    ensures st.nodes[x].Value? ==> r == Panic(x)
    ensures r.Panic? ==> r.culprit in st.nodes && st.nodes[r.culprit].Value?
    ensures SinksAreExprs(st) && st.nodes[x].Expr? ==> r.Ok?
    ensures r.Ok? ==> forall y :: Changed(st, r.value, y) ==> y == x || Downstream(st, x, y)
    ensures r.Panic? ==> r.culprit == x || Reaches(st, x, r.culprit)
    decreases CleanCount(st) + (if Examined(st, x) then 0 else 1), 1, 0
  {
    match st.nodes[x]
    case Value(_) => Panic(x)
    case Expr(_, _, _, _) =>
      var st1 := ClearFlag(st, x);
      ClearFlagCount(st, x);
      assert SameShape(st.nodes, st1.nodes) by {
        assert Shape(st1.nodes[x]) == Shape(st.nodes[x]);
      }
      KeepsSinks(st, st1);
      var r := BroadcastDirty(st1, x);
      if r.Ok? then
        OnlyDirtiedShrinks(st1, r.value);
        MarkReach(st, x, r.value);
        r
      else
        MarkCulprit(st, x, r.culprit);
        r
  }

  /** `Reactor::broadcast_dirty`: a no-op for an unregistered source, otherwise a pass over
      the source's subscriber set. */
  ghost function BroadcastDirty<V>(st: State<V>, source: Id): (r: Outcome<State<V>>)
    requires Wf(st)
    ensures r.Ok? ==> Wf(r.value) && OnlyDirtied(st, r.value)
    ensures r.Ok? ==> Settled(r.value, source) && NewlySettled(st, r.value)
    ensures source !in st.reactor.subscriptions ==> r == Ok(st)
    ensures r.Panic? ==> r.culprit in st.reactor.data && st.nodes[r.culprit].Value?
    ensures SinksAreExprs(st) ==> r.Ok?
    ensures r.Ok? ==> forall y :: Changed(st, r.value, y) ==> Downstream(st, source, y)
    ensures r.Panic? ==> Reaches(st, source, r.culprit)
    decreases CleanCount(st), 3, 0
  {
    if source in st.reactor.subscriptions then
      var r := BroadcastSet(st, st.reactor.subscriptions[source]);
      if r.Ok? then
        SubscribersDownstream(st, r.value, source);
        r
      else
        BroadcastCulprit(st, source, r.culprit);
        r
    else
      Ok(st)
  }

  /** The `filter`/`for_each` pass of `broadcast_dirty` over the subscribers still to visit.
      Each one is examined just before it is reached, so it sees the marks made earlier in
      the pass; unregistered and already dirty subscribers are skipped. */
  ghost function BroadcastSet<V>(st: State<V>, todo: set<Id>): (r: Outcome<State<V>>)
    requires Wf(st)
    ensures r.Ok? ==> Wf(r.value) && OnlyDirtied(st, r.value) && NewlySettled(st, r.value)
    ensures r.Ok? ==> forall x :: x in todo && x in st.reactor.data ==> IsDirty(r.value.nodes[x])
    ensures r.Panic? ==> r.culprit in st.reactor.data && st.nodes[r.culprit].Value?
    ensures SinksAreExprs(st) && (forall x :: x in todo && x in st.reactor.data ==> st.nodes[x].Expr?) ==> r.Ok?
    ensures r.Ok? ==> forall y :: Changed(st, r.value, y) ==> DownstreamOf(st, todo, y)
    ensures r.Panic? ==> ReachesFrom(st, todo, r.culprit)
    decreases CleanCount(st), 2, |todo|
  {
    if todo == {} then
      Ok(st)
    else
      var x :| x in todo;
      if Examined(st, x) then
        match MarkDirty(st, x)
        case Panic(c) =>
          if c != x then
            assert Live(st, x);
            SetCulpritMarked(st, todo, x, c);
            Panic(c)
          else
            Panic(c)
        case Ok(st1) =>
          ClearFlagCount(st, x);
          OnlyDirtiedTrans(st, ClearFlag(st, x), st1);
          OnlyDirtiedShrinks(st, st1);
          KeepsSinks(st, st1);
          var r := BroadcastSet(st1, todo - {x});
          if r.Ok? then
            OnlyDirtiedTrans(st, st1, r.value);
            OnlyDirtiedShrinks(st1, r.value);
            SetReachMarked(st, st1, r.value, todo, x);
            r
          else
            OnlyDirtiedFewerLive(st, st1);
            SetCulpritRest(st, st1, todo, x, r.culprit);
            r
      else
        var r := BroadcastSet(st, todo - {x});
        if r.Ok? then
          SetReachSkipped(st, r.value, todo, x);
          r
        else
          SetCulpritRest(st, st, todo, x, r.culprit);
          r
  }

  /** The nodes `mark_dirty` changes: the node itself and those its broadcast reaches. */
  lemma MarkReach<V>(st: State<V>, x: Id, st2: State<V>)
    requires x in st.nodes
    requires forall y :: Changed(ClearFlag(st, x), st2, y) ==> Downstream(ClearFlag(st, x), x, y)
    ensures forall y :: Changed(st, st2, y) ==> y == x || Downstream(st, x, y)
  {
    var st1 := ClearFlag(st, x);
    ClearFlagFewerLive(st, x);
    forall y | Changed(st, st2, y) && y != x
      ensures Downstream(st, x, y)
    {
      assert st1.nodes[y] == st.nodes[y];
      DownstreamMono(st, st1, x, y);
    }
  }

  /** The nodes a pass changes when it marks its first pick `x` and continues. */
  lemma SetReachMarked<V>(st: State<V>, st1: State<V>, st2: State<V>, todo: set<Id>, x: Id)
    requires x in todo && Live(st, x) && OnlyDirtied(st, st1)
    requires forall y :: Changed(st, st1, y) ==> y == x || Downstream(st, x, y)
    requires forall y :: Changed(st1, st2, y) ==> DownstreamOf(st1, todo - {x}, y)
    ensures forall y :: Changed(st, st2, y) ==> DownstreamOf(st, todo, y)
  {
    OnlyDirtiedFewerLive(st, st1);
    forall y | Changed(st, st2, y)
      ensures DownstreamOf(st, todo, y)
    {
      if st1.nodes[y] != st.nodes[y] {
        assert y == x || Downstream(st, x, y);
      } else {
        DownstreamOfMono(st, st1, todo, todo - {x}, y);
      }
    }
  }

  /** The nodes a pass changes when it skips its first pick `x`. */
  lemma SetReachSkipped<V>(st: State<V>, st2: State<V>, todo: set<Id>, x: Id)
    requires forall y :: Changed(st, st2, y) ==> DownstreamOf(st, todo - {x}, y)
    ensures forall y :: Changed(st, st2, y) ==> DownstreamOf(st, todo, y)
  {
    forall y | Changed(st, st2, y)
      ensures DownstreamOf(st, todo, y)
    {
      var z :| z in todo - {x} && Live(st, z) && (y == z || Downstream(st, z, y));
    }
  }

  /** A cell the broadcast after clearing `x`'s flag reaches is reached from `x` before. */
  lemma MarkCulprit<V>(st: State<V>, x: Id, c: Id)
    requires x in st.nodes && Reaches(ClearFlag(st, x), x, c)
    ensures Reaches(st, x, c)
  {
    var st1 := ClearFlag(st, x);
    ClearFlagFewerLive(st, x);
    var e :| (e == x || Downstream(st1, x, e)) && Edge(st1.reactor, e, c);
    if e != x {
      DownstreamMono(st, st1, x, e);
    }
  }

  /** A cell reached by marking the live member `x` is reached by the whole pass. */
  lemma SetCulpritMarked<V>(st: State<V>, todo: set<Id>, x: Id, c: Id)
    requires x in todo && Live(st, x) && Reaches(st, x, c)
    ensures ReachesFrom(st, todo, c)
  {
    var e :| (e == x || Downstream(st, x, e)) && Edge(st.reactor, e, c);
    assert DownstreamOf(st, todo, e);
  }

  /** A cell reached by the rest of the pass, after earlier marks, is reached by the whole pass. */
  lemma SetCulpritRest<V>(st: State<V>, st1: State<V>, todo: set<Id>, x: Id, c: Id)
    requires FewerLive(st, st1) && ReachesFrom(st1, todo - {x}, c)
    ensures ReachesFrom(st, todo, c)
  {
    if c !in todo {
      var e :| DownstreamOf(st1, todo - {x}, e) && Edge(st1.reactor, e, c);
      DownstreamOfMono(st, st1, todo, todo - {x}, e);
    }
  }

  /** A cell the pass over `source`'s subscribers reaches is reached from `source`. */
  lemma BroadcastCulprit<V>(st: State<V>, source: Id, c: Id)
    requires source in st.reactor.subscriptions && ReachesFrom(st, st.reactor.subscriptions[source], c)
    ensures Reaches(st, source, c)
  {
    var subs := st.reactor.subscriptions[source];
    if c in subs {
      assert Edge(st.reactor, source, c);
    } else {
      var e :| DownstreamOf(st, subs, e) && Edge(st.reactor, e, c);
      var y :| y in subs && Live(st, y) && (e == y || Downstream(st, y, e));
      DownstreamStep(st, source, y, e);
    }
  }

  /** `ReactiveValue::write`: broadcast from the value's own id, then store the new value.
      A panic during the broadcast aborts the write before the store. */
  ghost function Write<V>(st: State<V>, id: Id, v: V): (r: Outcome<State<V>>)
    requires Wf(st) && id in st.nodes && st.nodes[id].Value?
    ensures r.Ok? ==> Wf(r.value) && r.value.reactor == st.reactor && r.value.nodes.Keys == st.nodes.Keys
    ensures r.Ok? ==> r.value.nodes[id] == Value(v) && SameShape(r.value.nodes, st.nodes[id := Value(v)])
    ensures r.Ok? ==> OnlyDirtied(st, r.value.(nodes := r.value.nodes[id := st.nodes[id]]))
    ensures r.Ok? ==> Settled(r.value, id) && NewlySettled(st, r.value)
    ensures r.Panic? ==> r.culprit in st.reactor.data && st.nodes[r.culprit].Value?
    ensures SinksAreExprs(st) ==> r.Ok?
    ensures r.Ok? ==> forall y :: y != id && Changed(st, r.value, y) ==> Downstream(st, id, y)
    ensures r.Panic? ==> Reaches(st, id, r.culprit)
  {
    match BroadcastDirty(st, id)
    case Panic(c) => Panic(c)
    case Ok(st1) =>
      StoreAfterBroadcast(st, st1, id, v);
      Ok(st1.(nodes := st1.nodes[id := Value(v)]))
  }

  /** The store that ends `write` keeps what the broadcast established, apart from the
      written cell itself. */
  lemma StoreAfterBroadcast<V>(st: State<V>, st1: State<V>, id: Id, v: V)
    requires Wf(st) && id in st.nodes && st.nodes[id].Value?
    requires OnlyDirtied(st, st1) && Settled(st1, id) && NewlySettled(st, st1)
    requires forall y :: Changed(st, st1, y) ==> Downstream(st, id, y)
    ensures var st2 := st1.(nodes := st1.nodes[id := Value(v)]);
      && Wf(st2) && st2.reactor == st.reactor && st2.nodes.Keys == st.nodes.Keys
      && st2.nodes[id] == Value(v) && SameShape(st2.nodes, st.nodes[id := Value(v)])
      && OnlyDirtied(st, st2.(nodes := st2.nodes[id := st.nodes[id]]))
      && Settled(st2, id) && NewlySettled(st, st2)
      && forall y :: y != id && Changed(st, st2, y) ==> Downstream(st, id, y)
  {
    var st2 := st1.(nodes := st1.nodes[id := Value(v)]);
    OnlyDirtiedShrinks(st, st1);
    assert st2.(nodes := st2.nodes[id := st.nodes[id]]) == st1;
    assert st1.nodes[id] == st.nodes[id];
    StoreShape(st, st1, id, v);
    StoreSettled(st, st1, id, v);
  }

  lemma StoreShape<V>(st: State<V>, st1: State<V>, id: Id, v: V)
    requires id in st.nodes && SameShape(st.nodes, st1.nodes)
    ensures SameShape(st1.nodes[id := Value(v)], st.nodes[id := Value(v)])
  {
    var st2 := st1.nodes[id := Value(v)];
    forall x | x in st2
      ensures Shape(st2[x]) == Shape(st.nodes[id := Value(v)][x])
    {
      if x != id {
        assert Shape(st1.nodes[x]) == Shape(st.nodes[x]);
      }
    }
  }

  lemma StoreSettled<V>(st: State<V>, st1: State<V>, id: Id, v: V)
    requires id in st.nodes && st.nodes[id].Value?
    requires st1.reactor == st.reactor && st1.nodes.Keys == st.nodes.Keys && st1.nodes[id] == st.nodes[id]
    requires Settled(st1, id) && NewlySettled(st, st1)
    requires forall y :: Changed(st, st1, y) ==> Downstream(st, id, y)
    ensures var st2 := st1.(nodes := st1.nodes[id := Value(v)]);
      && Settled(st2, id) && NewlySettled(st, st2)
      && forall y :: y != id && Changed(st, st2, y) ==> Downstream(st, id, y)
  {
    var st2 := st1.(nodes := st1.nodes[id := Value(v)]);
    forall y | y != id && Changed(st, st2, y)
      ensures Downstream(st, id, y)
    {
      assert Changed(st, st1, y);
    }
    forall y | y in st.nodes && IsClean(st.nodes[y]) && IsDirty(st2.nodes[y])
      ensures Settled(st2, y)
    {
      assert y != id;
      assert Settled(st1, y);
    }
  }

  /** Along a path of live nodes, a settled start and settled newly dirtied nodes leave
      every later node of the path dirty. */
  lemma {:induction false} PathDirty<V>(st: State<V>, st': State<V>, p: seq<Id>, n: nat)
    requires Path(st, p) && 0 < n < |p|
    requires st'.reactor == st.reactor && st'.nodes.Keys == st.nodes.Keys
    requires Settled(st', p[0]) && NewlySettled(st, st')
    ensures IsDirty(st'.nodes[p[n]])
    decreases n
  {
    assert Edge(st.reactor, p[n - 1], p[n]) && Live(st, p[n]);
    if n > 1 {
      PathDirty(st, st', p, n - 1);
      assert Live(st, p[n - 1]);
    }
  }

  /** A successful broadcast changes exactly the nodes downstream of its source. */
  lemma BroadcastExact<V>(st: State<V>, source: Id)
    requires Wf(st) && BroadcastDirty(st, source).Ok?
    ensures forall y :: y in st.nodes ==> (Changed(st, BroadcastDirty(st, source).value, y) <==> Downstream(st, source, y))
  {
    var st' := BroadcastDirty(st, source).value;
    forall y | Downstream(st, source, y)
      ensures Changed(st, st', y)
    {
      var p :| Path(st, p) && p[0] == source && p[|p| - 1] == y;
      PathDirty(st, st', p, |p| - 1);
      assert Live(st, y);
    }
  }

  /** A successful write changes the written cell and, besides it, exactly the nodes
      downstream of it. */
  lemma WriteExact<V>(st: State<V>, id: Id, v: V)
    requires Wf(st) && id in st.nodes && st.nodes[id].Value? && Write(st, id, v).Ok?
    ensures forall y :: y in st.nodes && y != id ==> (Changed(st, Write(st, id, v).value, y) <==> Downstream(st, id, y))
  {
    BroadcastExact(st, id);
  }

  /** A pass over subscribers that are all dirty or unregistered changes nothing. */
  lemma {:induction false} QuietPass<V>(st: State<V>, todo: set<Id>)
    requires Wf(st)
    requires forall x :: x in todo && x in st.reactor.data ==> IsDirty(st.nodes[x])
    ensures BroadcastSet(st, todo) == Ok(st)
    decreases |todo|
  {
    if todo != {} {
      forall x | x in todo
        ensures BroadcastSet(st, todo - {x}) == Ok(st)
      {
        QuietPass(st, todo - {x});
      }
    }
  }

  /** Broadcasting twice from the same source is broadcasting once: the first pass leaves
      every registered subscriber dirty, so the second skips them all. */
  lemma BroadcastIdempotent<V>(st: State<V>, source: Id)
    requires Wf(st) && BroadcastDirty(st, source).Ok?
    ensures BroadcastDirty(BroadcastDirty(st, source).value, source) == BroadcastDirty(st, source)
  {
    var st1 := BroadcastDirty(st, source).value;
    if source in st1.reactor.subscriptions {
      QuietPass(st1, st1.reactor.subscriptions[source]);
    }
  }

  /** A broadcast that reaches a registered value subscriber fails, whatever the order of
      the pass: the value always reports clean, so it is marked, and marking it panics.
      The subscriber may hang off the source itself or off any cell downstream of it, whose
      own nested broadcast then reaches the value. */
  lemma ValueSinkPanics<V>(st: State<V>, source: Id, e: Id, x: Id)
    requires Wf(st) && (e == source || Downstream(st, source, e))
    requires Edge(st.reactor, e, x) && x in st.reactor.data && st.nodes[x].Value?
    ensures BroadcastDirty(st, source).Panic?
  {
    if e != source && BroadcastDirty(st, source).Ok? {
      BroadcastExact(st, source);
    }
  }

  /** A broadcast panics exactly when it reaches a registered value cell, and the panic
      names such a cell. */
  lemma BroadcastPanics<V>(st: State<V>, source: Id)
    requires Wf(st)
    ensures BroadcastDirty(st, source).Panic? <==>
      exists c :: Reaches(st, source, c) && c in st.reactor.data && st.nodes[c].Value?
  {
    forall c | Reaches(st, source, c) && c in st.reactor.data && st.nodes[c].Value?
      ensures BroadcastDirty(st, source).Panic?
    {
      var e :| (e == source || Downstream(st, source, e)) && Edge(st.reactor, e, c);
      ValueSinkPanics(st, source, e, c);
    }
  }
}

=== FILE: registry.dfy ===
/** The subscription registry of the reactive engine: the `Reactor` of src/lib.rs.

    The source keeps two hash maps, id -> node reference and id -> set of subscriber ids.
    Here the first map is the set `data` of registered ids (the node itself is reached
    through the node store of module World), the second is `subscriptions`.
 */
module Registry {

  /** Node identities. The source mints a random UUID per node; here identities are
      naturals chosen by the caller, compared only for equality. */
  type Id = nat

  datatype Reactor = Reactor(data: set<Id>, subscriptions: map<Id, set<Id>>)

  /** The two maps of the registry have the same key set. */
  predicate Aligned(r: Reactor) {
    r.data == r.subscriptions.Keys
  }

  /** `sink` is recorded as a subscriber of `source`. */
  predicate Edge(r: Reactor, source: Id, sink: Id) {
    source in r.subscriptions && sink in r.subscriptions[source]
  }

  /** `r'` extends `r`: no id is unregistered and no subscription edge is removed. */
  predicate Grows(r: Reactor, r': Reactor) {
    && r.data <= r'.data
    && r.subscriptions.Keys <= r'.subscriptions.Keys
    && forall s :: s in r.subscriptions ==> r.subscriptions[s] <= r'.subscriptions[s]
  }

  /** `Reactor::new`: no registered node and no subscription set. */
  function New(): (r: Reactor)
    ensures Aligned(r)
    ensures forall id :: id !in r.data && id !in r.subscriptions
  {
    Reactor({}, map[])
  }

  /** `Reactor::register`: a new id gets an empty subscriber set; a known id changes nothing. */
  function Register(r: Reactor, id: Id): (r': Reactor)
    ensures r'.data == r.data + {id}
    ensures id in r.data ==> r' == r
    ensures id !in r.data ==> id in r'.subscriptions && r'.subscriptions[id] == {}
    ensures forall s :: s in r.subscriptions && s != id ==> s in r'.subscriptions && r'.subscriptions[s] == r.subscriptions[s]
    ensures Aligned(r) ==> Aligned(r') && Grows(r, r') && r'.subscriptions.Keys == r.subscriptions.Keys + {id}
  {
    if id !in r.data then
      Reactor(r.data + {id}, r.subscriptions[id := {}])
    else
      r
  }

  /** `Reactor::subscribe`: set insertion into the subscriber set of a registered source,
      a no-op for an unregistered one; the sink itself need not be registered. */
  function Subscribe(r: Reactor, source: Id, sink: Id): (r': Reactor)
    ensures r'.data == r.data && r'.subscriptions.Keys == r.subscriptions.Keys
    ensures source !in r.subscriptions ==> r' == r
    ensures forall s, k :: Edge(r', s, k) <==> Edge(r, s, k) || (s == source && k == sink && source in r.subscriptions)
    ensures Grows(r, r')
    ensures Aligned(r) ==> Aligned(r')
  {
    if source in r.subscriptions then
      Reactor(r.data, r.subscriptions[source := r.subscriptions[source] + {sink}])
    else
      r
  }

  /** Registering twice is registering once. */
  lemma RegisterIdempotent(r: Reactor, id: Id)
    ensures Register(Register(r, id), id) == Register(r, id)
  {
  }

  /** On an aligned registry, registering an already known id keeps its subscribers. */
  lemma RegisterKeepsSubscribers(r: Reactor, id: Id, sink: Id)
    requires Aligned(r) && Edge(r, id, sink)
    ensures Register(r, id) == r && Edge(Register(r, id), id, sink)
  {
  }

  /** `n` repetitions of the same subscription. */
  function SubscribeTimes(r: Reactor, source: Id, sink: Id, n: nat): Reactor
  {
    if n == 0 then r else Subscribe(SubscribeTimes(r, source, sink, n - 1), source, sink)
  }

  /** Subscribing the same pair any positive number of times yields exactly one edge. */
  lemma {:induction false} SubscribeRepeated(r: Reactor, source: Id, sink: Id, n: nat)
    requires n >= 1
    ensures SubscribeTimes(r, source, sink, n) == Subscribe(r, source, sink)
  {
    if n > 1 {
      SubscribeRepeated(r, source, sink, n - 1);
      var once := Subscribe(r, source, sink);
      if source in r.subscriptions {
        assert once.subscriptions[source] + {sink} == once.subscriptions[source];
        assert once.subscriptions[source := once.subscriptions[source]] == once.subscriptions;
      }
    }
  }

  /** A register followed by a subscribe keeps the two maps aligned and removes no id or edge. */
  lemma RegistryGrows(r: Reactor, id: Id, source: Id, sink: Id)
    requires Aligned(r)
    ensures Aligned(Subscribe(Register(r, id), source, sink))
    ensures Grows(r, Subscribe(Register(r, id), source, sink))
  {
    var r1 := Register(r, id);
    var r2 := Subscribe(r1, source, sink);
    forall s | s in r.subscriptions
      ensures r.subscriptions[s] <= r2.subscriptions[s]
    {
      assert r.subscriptions[s] <= r1.subscriptions[s];
    }
  }
}

=== FILE: scenario.dfy ===
/** The `reactive_sum` test of src/reactive/expr.rs, carried through: two source cells
    `a = 1`, `b = 1` and a derived cell `sum = a + b`, all registered. The second
    scenario leaves `sum` unregistered, which shows that the registry's silent skip of
    unregistered subscribers lets a derived cell go stale.
 */
module Scenario {
  import opened Registry
  import opened Nodes
  import opened World
  import opened Propagation
  import opened Evaluation
  import opened Coherence

  const A: Id := 0
  const B: Id := 1
  const S: Id := 2
  const Rank: map<Id, nat> := map[A := 0, B := 0, S := 1]

  /** The closure of `sum`, over the values it reads. */
  function Sum(vs: seq<int>): int {
    if vs == [] then 0 else vs[0] + Sum(vs[1..])
  }

  /** `a` and `b` constructed and registered. */
  function Sources(): (st: State<int>)
    ensures Wired(st) && Consistent(st, Rank) && SinksAreExprs(st)
    ensures st.nodes == map[A := Value(1), B := Value(1)]
    ensures st.reactor.subscriptions == map[A := {}, B := {}]
  {
    var s0: State<int> := Init();
    ConstructKeeps(s0, Rank, Rank, A, NewValue(1));
    var s1 := RegisterNode(AddNode(s0, A, NewValue(1)), A);
    ConstructKeeps(s1, Rank, Rank, B, NewValue(1));
    RegisterNode(AddNode(s1, B, NewValue(1)), B)
  }

  /** `a`, `b` and `sum` constructed and registered, nothing computed yet. */
  function Setup(): (st: State<int>)
    ensures Wired(st) && Consistent(st, Rank) && SinksAreExprs(st)
    ensures st.nodes == map[A := Value(1), B := Value(1), S := NewExpr([A, B], Sum)]
  {
    var s := Sources();
    ConstructKeeps(s, Rank, Rank, S, NewExpr([A, B], Sum));
    RegisterNode(AddNode(s, S, NewExpr([A, B], Sum)), S)
  }

  lemma SumMeaning(nodes: map<Id, Node<int>>, x: int, y: int)
    requires nodes.Keys == {A, B, S} && nodes[A] == Value(x) && nodes[B] == Value(y)
    requires Shape(nodes[S]) == NewExpr([A, B], Sum)
    ensures Ranked(nodes, Rank) && Eval(nodes, Rank, S) == x + y
  {
    assert Ranked(nodes, Rank) by {
      forall n, d | n in nodes && nodes[n].Expr? && d in nodes[n].deps
        ensures d in nodes && Rank[d] < Rank[n]
      {
        assert n == S;
      }
    }
    var deps := nodes[S].deps;
    assert deps == [A, B];
    assert EvalAll(nodes, Rank, deps[1..], 1) == [y];
    assert EvalAll(nodes, Rank, deps, 1) == [x, y];
    assert Sum([x, y]) == x + Sum([y]);
  }

  /** The sum cell with sources holding `x` and `y`, all registered, invariants held. */
  ghost predicate SumState(st: State<int>, x: int, y: int) {
    && Wired(st) && Consistent(st, Rank) && SinksAreExprs(st)
    && st.nodes.Keys == {A, B, S} && st.nodes[A] == Value(x) && st.nodes[B] == Value(y)
    && Shape(st.nodes[S]) == NewExpr([A, B], Sum)
  }

  /** Seeking the sum cell yields `x + y` and keeps the scenario's shape. */
  lemma SeekSum(st: State<int>, x: int, y: int)
    requires SumState(st, x, y)
    ensures Seek(st, Rank, S).1 == x + y && SumState(Seek(st, Rank, S).0, x, y)
    ensures IsClean(Seek(st, Rank, S).0.nodes[S]) && Edge(Seek(st, Rank, S).0.reactor, A, S)
  {
    SumMeaning(st.nodes, x, y);
    SeekKeeps(st, Rank, S);
    var st1 := Seek(st, Rank, S).0;
    assert Shape(st1.nodes[S]) == Shape(st.nodes[S]);
    assert Shape(st1.nodes[A]) == Shape(st.nodes[A]);
    assert Shape(st1.nodes[B]) == Shape(st.nodes[B]);
    assert Fresh(st1, Rank, S);
    assert A in st1.nodes[S].deps;
  }

  /** Writing source `a` keeps the scenario's shape with the new value in place. */
  lemma WriteSum(st: State<int>, x: int, y: int, v: int)
    requires SumState(st, x, y)
    ensures Write(st, A, v).Ok? && SumState(Write(st, A, v).value, v, y)
    ensures Write(st, A, v).value.reactor == st.reactor
    ensures Edge(st.reactor, A, S) ==> IsDirty(Write(st, A, v).value.nodes[S])
  {
    WriteSound(st, Rank, A, v);
    var st1 := Write(st, A, v).value;
    assert SameShape(st1.nodes, st.nodes[A := Value(v)]);
    assert Shape(st1.nodes[S]) == Shape(st.nodes[S]);
    assert Shape(st1.nodes[B]) == Shape(st.nodes[B]);
  }

  /** The state the `reactive_sum` test builds is a sum scenario over `1` and `1`. */
  lemma SetupIsSum()
    ensures SumState(Setup(), 1, 1) && IsDirty(Setup().nodes[S])
  {
  }

  /** From a sum scenario over `1` and `1` (as `Setup` builds): `seek(sum) == 2`, and a
      second seek changes nothing, so the closure does not run again. */
  lemma SumScenario(st0: State<int>)
    requires SumState(st0, 1, 1)
    ensures Seek(st0, Rank, S).1 == 2
    ensures var st1 := Seek(st0, Rank, S).0;
      && Seek(st1, Rank, S) == (st1, 2)
      && SumState(st1, 1, 1) && Edge(st1.reactor, A, S)
  {
    SeekSum(st0, 1, 1);
  }

  /** The range of the test's `i32` cells. */
  predicate IsI32(x: int) {
    -0x8000_0000 <= x < 0x8000_0000
  }

  /** Continuing the `reactive_sum` test: after `write(a, v)` on the computed scenario
      (the test writes `2`) the sum cell is dirty, no subscription changed, and
      `seek(sum) == v + 1`. The closure adds `i32` values, so `v` is an `i32` for which
      `v + 1` does not overflow. */
  lemma SumAfterWrite(st1: State<int>, v: int)
    requires SumState(st1, 1, 1) && Edge(st1.reactor, A, S)
    requires IsI32(v) && IsI32(v + 1)
    ensures Write(st1, A, v).Ok?
    ensures var st2 := Write(st1, A, v).value;
      && IsDirty(st2.nodes[S]) && st2.reactor == st1.reactor
      && Seek(st2, Rank, S).1 == v + 1
  {
    WriteSum(st1, 1, 1, v);
    SeekSum(Write(st1, A, v).value, v, 1);
  }

  /** `a` and `b` registered, `sum` constructed but never registered. */
  function Unwired(): (st: State<int>)
    ensures Wf(st) && Ranked(st.nodes, Rank)
    ensures st.nodes == map[A := Value(1), B := Value(1), S := NewExpr([A, B], Sum)]
    ensures st.reactor.data == {A, B} && st.reactor.subscriptions == map[A := {}, B := {}]
  {
    var st := AddNode(Sources(), S, NewExpr([A, B], Sum));
    SumMeaning(st.nodes, 1, 1);
    st
  }

  /** The sum cell, not computed yet, over sources holding `x` and `y`, with the sum
      cell unregistered and no registered subscriber of `a`. */
  ghost predicate StaleState(st: State<int>, x: int, y: int) {
    && Wf(st) && Ranked(st.nodes, Rank)
    && st.nodes.Keys == {A, B, S} && st.nodes[A] == Value(x) && st.nodes[B] == Value(y)
    && Shape(st.nodes[S]) == NewExpr([A, B], Sum) && IsDirty(st.nodes[S])
    && S !in st.reactor.data
    && forall k :: Edge(st.reactor, A, k) ==> k !in st.reactor.data
  }

  lemma UnwiredIsStale()
    ensures StaleState(Unwired(), 1, 1)
  {
  }

  /** The unregistered sum cell after it has been computed: it holds `x + y`. */
  ghost predicate SeenState(st: State<int>, x: int, y: int) {
    && Wf(st) && Ranked(st.nodes, Rank)
    && st.nodes.Keys == {A, B, S} && st.nodes[A] == Value(x) && st.nodes[B] == Value(y)
    && Shape(st.nodes[S]) == NewExpr([A, B], Sum)
    && IsClean(st.nodes[S]) && Current(st.nodes[S]) == x + y
    && forall k :: Edge(st.reactor, A, k) ==> k !in st.reactor.data
  }

  /** The first seek of the unregistered cell computes `x + y`, leaves `a` and `b` as they
      were and subscribes nothing registered to `a`. */
  lemma FirstSeekUnwired(st0: State<int>, x: int, y: int)
    requires StaleState(st0, x, y)
    ensures Seek(st0, Rank, S).1 == x + y && SeenState(Seek(st0, Rank, S).0, x, y)
  {
    UnwiredSeekValue(st0, x, y);
    UnwiredSeekEdges(st0, x, y);
  }

  lemma UnwiredSeekValue(st0: State<int>, x: int, y: int)
    requires StaleState(st0, x, y)
    ensures var st1 := Seek(st0, Rank, S).0;
      && Seek(st0, Rank, S).1 == x + y && Wf(st1) && Ranked(st1.nodes, Rank)
      && st1.nodes.Keys == {A, B, S} && st1.nodes[A] == Value(x) && st1.nodes[B] == Value(y)
      && Shape(st1.nodes[S]) == NewExpr([A, B], Sum)
  {
    var st1 := Seek(st0, Rank, S).0;
    assert Shape(st1.nodes[A]) == Shape(st0.nodes[A]);
    assert Shape(st1.nodes[B]) == Shape(st0.nodes[B]);
    assert Shape(st1.nodes[S]) == Shape(st0.nodes[S]);
    var vs := Snapshot(st1.nodes, [A, B]);
    assert vs == [x, y];
    assert Sum(vs) == x + Sum([y]);
  }

  lemma UnwiredSeekEdges(st0: State<int>, x: int, y: int)
    requires StaleState(st0, x, y)
    ensures var st1 := Seek(st0, Rank, S).0;
      forall k :: Edge(st1.reactor, A, k) ==> k !in st1.reactor.data
  {
    var st1 := Seek(st0, Rank, S).0;
    forall k | Edge(st1.reactor, A, k)
      ensures k !in st1.reactor.data
    {
      if !Edge(st0.reactor, A, k) {
        assert k == S;
      }
    }
  }

  /** A write to `a` reaches no registered subscriber, so it only stores the value. */
  lemma WriteSkipsUnwired(st1: State<int>, x: int, y: int, v: int)
    requires SeenState(st1, x, y)
    ensures Write(st1, A, v) == Ok(st1.(nodes := st1.nodes[A := Value(v)]))
  {
    if A in st1.reactor.subscriptions {
      var subs := st1.reactor.subscriptions[A];
      assert forall k :: k in subs ==> Edge(st1.reactor, A, k);
      QuietPass(st1, subs);
    }
  }

  /** An unregistered derived cell still subscribes to what it reads, but a write skips
      it: once computed (`FirstSeekUnwired`) it stays clean after `write(a, v)` and keeps
      answering its old value `x + y` while its meaning has become `v + y`. */
  lemma UnregisteredSinkIsStale(st1: State<int>, x: int, y: int, v: int)
    requires SeenState(st1, x, y)
    ensures Write(st1, A, v).Ok?
    ensures var st2 := Write(st1, A, v).value;
      && IsClean(st2.nodes[S]) && Ranked(st2.nodes, Rank)
      && Seek(st2, Rank, S).1 == x + y
      && Eval(st2.nodes, Rank, S) == v + y
  {
    WriteSkipsUnwired(st1, x, y, v);
    var st2 := st1.(nodes := st1.nodes[A := Value(v)]);
    assert st2.nodes[S] == st1.nodes[S];
    SumMeaning(st2.nodes, v, y);
  }
}

=== FILE: world.dfy ===
/** The whole engine state: every constructed node, registered or not, together with the
    registry. The source's nodes live in the caller's scope and the registry holds
    references to them; here the node store plays the part of that scope.
 */
module World {
  import opened Registry
  import opened Nodes

  datatype State<!V> = State(nodes: map<Id, Node<V>>, reactor: Reactor)

  /** Structural invariant: the registry's maps agree and every registered id names a node. */
  predicate Wf<V>(st: State<V>) {
    Aligned(st.reactor) && st.reactor.data <= st.nodes.Keys
  }

  /** `rank` witnesses that the reads of expression nodes are acyclic: every node read by
      an expression exists and has a smaller rank than the expression. */
  predicate Ranked<V>(nodes: map<Id, Node<V>>, rank: map<Id, nat>) {
    && nodes.Keys <= rank.Keys
    && forall x, d :: x in nodes && nodes[x].Expr? && d in nodes[x].deps ==> d in nodes && rank[d] < rank[x]
  }

  /** Two node stores with the same ids, kinds, values, reads and combinators. */
  ghost predicate SameShape<V>(n1: map<Id, Node<V>>, n2: map<Id, Node<V>>) {
    n1.Keys == n2.Keys && forall x :: x in n1 ==> Shape(n1[x]) == Shape(n2[x])
  }

  /** The values of the clean nodes `ds`, in order. */
  function Snapshot<V>(nodes: map<Id, Node<V>>, ds: seq<Id>): (vs: seq<V>)
    requires forall d :: d in ds ==> d in nodes && IsClean(nodes[d])
    ensures |vs| == |ds|
    ensures forall i :: 0 <= i < |ds| ==> vs[i] == Current(nodes[ds[i]])
  {
    if ds == [] then [] else [Current(nodes[ds[0]])] + Snapshot(nodes, ds[1..])
  }

  /** An empty reactor and no node. */
  function Init<V>(): (st: State<V>)
    ensures Wf(st) && st.nodes == map[]
    ensures forall id :: id !in st.reactor.data && id !in st.reactor.subscriptions
  {
    State(map[], New())
  }

  /** `id` has never been handed out: no node has it and no subscription set names it.
      This is what a freshly minted random UUID guarantees. */
  predicate Unused<V>(st: State<V>, id: Id) {
    id !in st.nodes && forall s :: s in st.reactor.subscriptions ==> id !in st.reactor.subscriptions[s]
  }

  /** Constructing a node under a fresh id. The constructors of src/reactive take a reactor
      reference but do not register the node. */
  function AddNode<V>(st: State<V>, id: Id, n: Node<V>): (st': State<V>)
    requires id !in st.nodes
    ensures st'.reactor == st.reactor && st'.nodes == st.nodes[id := n]
    ensures Wf(st) ==> Wf(st') && id !in st'.reactor.data && id !in st'.reactor.subscriptions
  {
    State(st.nodes[id := n], st.reactor)
  }

  /** `Reactor::register` applied to an existing node. */
  function RegisterNode<V>(st: State<V>, id: Id): (st': State<V>)
    requires id in st.nodes
    ensures st'.nodes == st.nodes && id in st'.reactor.data
    ensures Wf(st) ==> Wf(st') && Grows(st.reactor, st'.reactor)
  {
    st.(reactor := Register(st.reactor, id))
  }

  /** `Reactor::subscribe` on the state. */
  function SubscribeIn<V>(st: State<V>, source: Id, sink: Id): (st': State<V>)
    ensures st'.nodes == st.nodes && Grows(st.reactor, st'.reactor)
    ensures st.reactor.data == st'.reactor.data
    ensures source in st.reactor.subscriptions ==> Edge(st'.reactor, source, sink)
    ensures Wf(st) ==> Wf(st')
  {
    st.(reactor := Subscribe(st.reactor, source, sink))
  }

  /** The flag update of an expression's `mark_dirty`; a value node is left as it is. */
  function ClearFlag<V>(st: State<V>, id: Id): (st': State<V>)
    requires id in st.nodes
    ensures st'.reactor == st.reactor && st'.nodes.Keys == st.nodes.Keys
    ensures st.nodes[id].Expr? ==> IsDirty(st'.nodes[id]) && st'.nodes[id] == Dirtied(st.nodes[id])
    ensures forall x :: x in st.nodes && x != id ==> st'.nodes[x] == st.nodes[x]
  {
    if st.nodes[id].Expr? then st.(nodes := st.nodes[id := Dirtied(st.nodes[id])]) else st
  }

  /** The registered expression nodes that currently report clean. */
  ghost function CleanSet<V>(st: State<V>): set<Id> {
    set x | x in st.reactor.data && x in st.nodes && st.nodes[x].Expr? && IsClean(st.nodes[x])
  }

  /** The termination measure of dirty propagation. */
  ghost function CleanCount<V>(st: State<V>): nat {
    |CleanSet(st)|
  }

  /** `st'` arises from `st` by marking registered clean expression nodes dirty, and
      nothing else: same registry, same ids, every other node untouched. */
  ghost predicate OnlyDirtied<V>(st: State<V>, st': State<V>) {
    && st'.reactor == st.reactor
    && st'.nodes.Keys == st.nodes.Keys
    && forall x :: x in st.nodes ==>
         || st'.nodes[x] == st.nodes[x]
         || (&& x in st.reactor.data && st.nodes[x].Expr? && IsClean(st.nodes[x])
             && st'.nodes[x] == Dirtied(st.nodes[x]))
  }

  lemma SubsetCardinality<T>(a: set<T>, b: set<T>)
    requires a <= b
    ensures |a| <= |b|
  {
    if a != {} {
      var x :| x in a;
      SubsetCardinality(a - {x}, b - {x});
    }
  }

  /** Dirtying never increases the number of clean registered expressions, and a dirty
      node is never made clean. */
  lemma {:induction false} OnlyDirtiedShrinks<V>(st: State<V>, st': State<V>)
    requires OnlyDirtied(st, st')
    ensures CleanCount(st') <= CleanCount(st)
    ensures forall x :: x in st.nodes && IsClean(st'.nodes[x]) ==> st'.nodes[x] == st.nodes[x]
    ensures Wf(st) ==> Wf(st')
    ensures SameShape(st.nodes, st'.nodes)
  {
    assert CleanSet(st') <= CleanSet(st) by {
      forall x | x in CleanSet(st')
        ensures x in CleanSet(st)
      {
        assert st'.nodes[x] == st.nodes[x];
      }
    }
    SubsetCardinality(CleanSet(st'), CleanSet(st));
  }

  /** Dirtying twice is dirtying. */
  lemma OnlyDirtiedTrans<V>(a: State<V>, b: State<V>, c: State<V>)
    requires OnlyDirtied(a, b) && OnlyDirtied(b, c)
    ensures OnlyDirtied(a, c)
  {
    forall x | x in a.nodes
      ensures || c.nodes[x] == a.nodes[x]
              || (&& x in a.reactor.data && a.nodes[x].Expr? && IsClean(a.nodes[x])
                  && c.nodes[x] == Dirtied(a.nodes[x]))
    {
      if b.nodes[x] != a.nodes[x] {
        assert IsDirty(b.nodes[x]);
      }
    }
  }

  /** Clearing the flag of a registered clean expression removes exactly that node from
      the clean set; in every other case the clean set does not grow. */
  lemma {:induction false} ClearFlagCount<V>(st: State<V>, id: Id)
    requires id in st.nodes
    ensures CleanCount(ClearFlag(st, id)) <= CleanCount(st)
    ensures id in CleanSet(st) ==> CleanCount(ClearFlag(st, id)) < CleanCount(st)
  {
    var st' := ClearFlag(st, id);
    assert CleanSet(st') == CleanSet(st) - {id} by {
      forall x | x in CleanSet(st)
        ensures x in CleanSet(st') || x == id
      {
      }
    }
  }
}
